=== FILE: README.md ===
# A verified model of a small Java web crawler

This project models, in Dafny, the core of a single-threaded web crawler
written in Java. The model has three layers.

- **The stream scanner** (`HTMLreadImpl`). Primitives that consume
  characters from a forward-only input stream until a target character
  appears: `readUntil`, `skipSpace` and `readString`.
- **The link extractor** (`HyperlinkListBuilderImpl`). A one-pass state
  machine over an HTML page:
  - it finds `<`, reads the tag initial and classifies the tag as `a`,
    `base` or `body`;
  - it tracks whether the body has started (`bodyReached`) and the
    document's base URL (`baseURL`);
  - it appends each `href` value to `linkList`, either as an absolute URL
    or resolved against the base, or drops it.
- **The crawl loop** (`WebCrawlerImpl`). Two constructors install the
  bounds `maxLinks` and `maxDepth`. The `crawl` method is a `do … while`
  loop over a link store: it fetches the start page, extracts its links,
  writes to the store's temporary table, asks the abstract `search` whether
  the page is a hit, marks the page visited and takes the next URL. Each
  pass advances the counters `priority` and `linksProcessed` together.

Each imperative operation appears twice:

- **A pure function**, such as `ReadUntilAt`, `CreateListFrom`,
  `Iteration` or `CrawlFrom`. It works on the characters and a cursor, or
  on the store's tables and the loop variables, and says what the operation
  means.
- **A method on a class**, such as `ReadUntil`,
  `HyperlinkListBuilder.CreateList` or `WebCrawler.Crawl`. Its loop is
  proved to leave the objects exactly where the function says.

The lemmas then state what the code promises in terms of those functions.

Files:

- `common.dfy`: shared types.
- `html_read.dfy`: the scanner.
- `link_extraction.dfy`: the extractor.
- `extraction_properties.dfy`: per-tag rules and worked documents.
- `link_store.dfy`: the link store.
- `web_crawler.dfy`: the crawl loop.
- `crawl_properties.dfy`: whole-crawl properties.

Java's unchecked exceptions that escape `createList` and `crawl` are
modelled as outcomes (`Fault`), not ruled out by preconditions:

- `StringIndexOutOfBoundsException` from `substring(0, 4)`, thrown by a
  short tag name or a short href;
- `NullPointerException` from a null href.

The two-argument constructor's `NullPointerException`, from unboxing a
null `Integer`, is stated by the function Crawling.ConfiguredBounds; the
constructor itself requires arguments that do not throw (see Left out).

A malformed URL, which the code catches and logs, is modelled as "nothing
added".

## Model

| member | source | states |
|---|---|---|
| HtmlRead.FirstMatch | src/crawler/HTMLreadImpl.java:26-33 | the position of the first character from the cursor on that equals either target ignoring case, or the end; no target before it |
| HtmlRead.FirstMatchIs | src/crawler/HTMLreadImpl.java:26-33 | FirstMatch is the only position with no target before it and a target (or the end) at it |
| HtmlRead.ReadUntilAt | src/crawler/HTMLreadImpl.java:22-38 | readUntil consumes up to and including the first target, case-insensitively, and nothing beyond; true exactly when that character is ch1 (compared first, so it wins when ch1 and ch2 coincide); false when it is ch2 or when the input ends with no target |
| HtmlRead.ReadUntil | src/crawler/HTMLreadImpl.java:22-38 | the read loop over the stream returns and consumes exactly what ReadUntilAt says |
| HtmlRead.FirstNonSpace | src/crawler/HTMLreadImpl.java:41 | the first position from the cursor on holding `ch` or a non-whitespace character; only whitespace other than `ch` before it |
| HtmlRead.FirstNonSpaceIs | src/crawler/HTMLreadImpl.java:41 | FirstNonSpace is the only position with only whitespace other than `ch` before it and `ch`, a non-whitespace character or the end at it |
| HtmlRead.SkipSpaceAt | src/crawler/HTMLreadImpl.java:41 | skipSpace skips whitespace other than `ch` and consumes one more character; it returns that character when it is neither whitespace nor `ch`, and '\0' only when it stopped on `ch`, the input ran out, or it read a NUL; it consumes at least one character unless the input is exhausted |
| HtmlRead.SkipSpace | src/crawler/HTMLreadImpl.java:41 | the loop over the stream returns and consumes exactly what SkipSpaceAt says |
| HtmlRead.ReadStringAt | src/crawler/HTMLreadImpl.java:44 | readString consumes like readUntil; returns the text read before ch1, or null when ch2 or the end of the input comes first |
| HtmlRead.ReadString | src/crawler/HTMLreadImpl.java:44 | the loop over the stream returns and consumes exactly what ReadStringAt says |
| HtmlRead.InputStream.constructor | src/crawler/WebCrawlerImpl.java:99 | a freshly opened stream is at the start of the page's characters and open |
| HtmlRead.InputStream.Read | src/crawler/HTMLreadImpl.java:26 | read() yields the next character and advances by one, or -1 at the end without moving |
| HtmlRead.InputStream.Available | src/crawler/HyperlinkListBuilderImpl.java:67 | available() is the number of characters not yet read |
| HtmlRead.InputStream.Close | src/crawler/HyperlinkListBuilderImpl.java:68 | close() marks the stream closed and reads nothing |
| LinkExtraction.ExtractCommand | src/crawler/HyperlinkListBuilderImpl.java:79-88 | "a" for every tag whose first character is `a` (so "abbr" too); "base" or "body" when the first four characters are exactly those; null otherwise; throws StringIndexOutOfBounds exactly when the tag is empty, or does not start with `a` and is shorter than 4 |
| LinkExtraction.CheckRelative | src/crawler/HyperlinkListBuilderImpl.java:155-159 | relative exactly when the first four characters are not "http" ignoring case; throws exactly when the text is shorter than 4 |
| LinkExtraction.ExtractHtmlAt | src/crawler/HyperlinkListBuilderImpl.java:133-149 | extractHTML never reads backwards or past the end; what each of its three outcomes means is stated by ExtractHtmlValue, ExtractHtmlEmpty and ExtractHtmlNull, and HrefFound gives the converse for a well-formed href |
| LinkExtraction.ExtractHtmlValue | src/crawler/HyperlinkListBuilderImpl.java:133-149 | a non-empty value extractHTML returns is the text between the quotes of an `href="…"` (the `h` and `ref=` matched ignoring case) that ends where the cursor stops |
| LinkExtraction.ExtractHtmlEmpty | src/crawler/HyperlinkListBuilderImpl.java:133-149 | extractHTML returns "" only when its cursor stops at the end of the input, just past a line break or a NUL, or just past an empty `href=""` (an earlier href may have been skipped, as in `hhref="v"`) |
| LinkExtraction.ExtractHtmlNull | src/crawler/HyperlinkListBuilderImpl.java:133-149 | extractHTML returns null only when an `href="` opened at or after the cursor and no closing quote follows it before the line or the input ends |
| ExtractionProperties.HrefFound | src/crawler/HyperlinkListBuilderImpl.java:133-149 | conversely, at `href="v"`, after any run of whitespace other than the line break, with `v` free of quotes and line breaks, extractHTML returns `v` and stops just past the closing quote |
| LinkExtraction.Enact | src/crawler/HyperlinkListBuilderImpl.java:94-123 | enactCommand: only `body` sets bodyReached and nothing clears it; baseURL changes only for `base`, only before the body, and only to a URL; the list gains at most one URL, only for `a`, at its end; an exception leaves the state unchanged |
| LinkExtraction.ScanTagAt | src/crawler/HyperlinkListBuilderImpl.java:56-67 | one pass of createList's loop makes progress and keeps the same rules: the body flag is monotone, the base is frozen after the body and the list is append-only |
| LinkExtraction.CreateListFrom | src/crawler/HyperlinkListBuilderImpl.java:52-73 | without an exception the whole page is consumed; the body flag is monotone, the base is set only before the body, and links are only appended, in document order |
| LinkExtraction.HyperlinkListBuilder.constructor | src/crawler/HyperlinkListBuilderImpl.java:21-49 | a new builder has not reached the body, has no base and an empty list |
| LinkExtraction.HyperlinkListBuilder.CreateList | src/crawler/HyperlinkListBuilderImpl.java:52-73 | createList starts a fresh list, runs the tag loop until available() is 0 and closes the stream; its state, the cursor, the returned list or the escaping exception are those of CreateListFrom |
| LinkExtraction.HyperlinkListBuilder.ScanTag | src/crawler/HyperlinkListBuilderImpl.java:57-66 | one pass of the loop body changes the builder's fields and the stream exactly as ScanTagAt says |
| LinkExtraction.HyperlinkListBuilder.EnactCommand | src/crawler/HyperlinkListBuilderImpl.java:94-123 | the method updates the builder's fields and the stream exactly as Enact says |
| LinkExtraction.HyperlinkListBuilder.ExtractHTML | src/crawler/HyperlinkListBuilderImpl.java:133-149 | the do-while returns and consumes exactly what ExtractHtmlAt says |
| ExtractionProperties.AbsoluteHrefAppended | src/crawler/HyperlinkListBuilderImpl.java:99-103 | an `a` tag with an absolute href appends exactly that URL, whatever the base and the body flag; a malformed one appends nothing |
| ExtractionProperties.RelativeHrefNeedsBaseAndBody | src/crawler/HyperlinkListBuilderImpl.java:104-107 | a relative href changes the list if and only if a base is set, the body has started and resolution succeeds; then it appends the resolved URL |
| ExtractionProperties.EmptyHrefIgnored | src/crawler/HyperlinkListBuilderImpl.java:100 | an empty href, or no href before the input ends, changes nothing |
| ExtractionProperties.BadHrefAborts | src/crawler/HyperlinkListBuilderImpl.java:99-101 | an unterminated href (null) throws NullPointerException at isEmpty(); an href of 1 to 3 characters throws StringIndexOutOfBounds in checkRelative |
| ExtractionProperties.BaseHonouredOnlyBeforeBody | src/crawler/HyperlinkListBuilderImpl.java:110-116 | after the body a `base` tag does nothing, not even reading its attributes; before it, the base changes if and only if the href is non-empty and parses to a different URL |
| ExtractionProperties.BodyOnlySetsFlag | src/crawler/HyperlinkListBuilderImpl.java:117 | a `body` tag sets the flag and leaves the list, the base and the cursor alone |
| ExtractionProperties.OnlyLowerCaseInitialsDispatch | src/crawler/HyperlinkListBuilderImpl.java:57-65 | after `<`, any initial other than lower-case `a` or `b` (including '\0') leads to no classification and no further reading |
| ExtractionProperties.LineBreakTagAborts | src/crawler/HyperlinkListBuilderImpl.java:60-61 | on `<br />` the tag name is "br", and extractCommand's `substring(0, 4)` throws, ending createList |
| ExtractionProperties.BodyAtLineEndUnseen | src/crawler/HyperlinkListBuilderImpl.java:60 | on `<body>` followed by a line break, readString returns null, the tag reads "bnull", and the body is never recognised |
| ExtractionProperties.BodyTagSwallowsAnchor | src/crawler/HyperlinkListBuilderImpl.java:58-64 | on `<body><a href=…>` the body tag's name is read up to the next space, "body><a", which still classifies as `body` |
| ExtractionProperties.AnchorRightAfterBodyLost | src/crawler/HyperlinkListBuilderImpl.java:56-67 | hence on that page the anchor is never seen: the body is reached and the list stays empty |
| ExtractionProperties.AbsoluteAnchorListed | src/crawler/HyperlinkListBuilderImpl.java:52-123 | on the page `<a href="http">` createList reads the whole page and returns exactly the URL "http" parses to (none if it is malformed) |
| LinkStore.Enqueue | src/crawler/WebCrawlerImpl.java:111 | writeTemp makes the page known to checkExistsTemp and touches neither visited pages nor results |
| LinkStore.MarkVisited | src/crawler/WebCrawlerImpl.java:123 | linkVisited makes the page known and touches neither the frontier nor the results |
| LinkStore.Record | src/crawler/WebCrawlerImpl.java:118 | writeResult appends the page to the results and changes what is known about no page |
| LinkStore.NextUrl | src/crawler/WebCrawlerImpl.java:124 | getNextURL returns "" on an empty frontier; otherwise it takes the head entry's page off the frontier |
| LinkStore.LinkDB.constructor | src/crawler/WebCrawlerImpl.java:80 | the store object opens over the tables it is given |
| LinkStore.LinkDB.CheckExistsTemp | src/crawler/WebCrawlerImpl.java:96 | returns whether the page is queued or visited |
| LinkStore.LinkDB.WriteTemp | src/crawler/WebCrawlerImpl.java:111 | the tables become those of Enqueue |
| LinkStore.LinkDB.LinkVisited | src/crawler/WebCrawlerImpl.java:123 | the tables become those of MarkVisited |
| LinkStore.LinkDB.WriteResult | src/crawler/WebCrawlerImpl.java:118 | the tables become those of Record |
| LinkStore.LinkDB.GetNextURL | src/crawler/WebCrawlerImpl.java:124 | the page and the tables become those of NextUrl |
| LinkStore.LinkDB.ReturnResults | src/crawler/WebCrawlerImpl.java:130 | returns the recorded results |
| Crawling.ConfiguredBounds | src/crawler/WebCrawlerImpl.java:70-75 | throws NullPointerException exactly when maxLinks is null, or maxLinks is not positive and maxDepth is null; when neither is positive the defaults 100 and 2 stay; when either is positive both are installed, even a non-positive one, and a null maxDepth keeps its default |
| Crawling.WriteTemps | src/crawler/WebCrawlerImpl.java:108-114 | the enqueue loop only appends to the frontier, at most once per link, and only the current page with the current priority, never the link itself |
| Crawling.Advance | src/crawler/WebCrawlerImpl.java:123-126 | the end of every pass marks the page visited, then takes as the next page the one getNextURL hands out from the store with this page visited, and adds one to each counter, leaving the results alone |
| Crawling.Iteration | src/crawler/WebCrawlerImpl.java:96-126 | one pass: an exception leaves everything as it was; otherwise both counters advance by one, the page is marked visited, and a result (the page) is recorded only when the page was unknown, non-empty, the start URL parsed and search said yes; when the guard fails nothing is fetched, queued or recorded |
| Crawling.Rounds | src/crawler/WebCrawlerImpl.java:125-128 | the do-while always makes at least one pass |
| Crawling.CrawlFrom | src/crawler/WebCrawlerImpl.java:95-128 | the counters advance in lockstep by exactly Rounds passes and stop just past a bound; visited pages and results only grow |
| Crawling.WebCrawler.Default | src/crawler/WebCrawlerImpl.java:61 | the no-argument constructor keeps the defaults maxLinks 100 and maxDepth 2 and zero counters |
| Crawling.WebCrawler.constructor | src/crawler/WebCrawlerImpl.java:70-75 | the two-argument constructor installs exactly the bounds ConfiguredBounds gives |
| Crawling.WebCrawler.Crawl | src/crawler/WebCrawlerImpl.java:78-131 | crawl leaves the store and the counters where CrawlFrom ends from the object's counters, and returns the results, or the exception that escaped; the bounds are unchanged |
| Crawling.WebCrawler.Pass | src/crawler/WebCrawlerImpl.java:96-126 | one pass of the loop body changes the store, the counters, the cursor and the link list exactly as Iteration says |
| Crawling.WebCrawler.FetchLinks | src/crawler/WebCrawlerImpl.java:98-105 | opening the start page on the current pass, running a new builder and closing the stream give what Harvest says: the previous list when that fetch fails, otherwise the list a fresh builder's createList returns or the exception it throws |
| Crawling.WebCrawler.QueueLinks | src/crawler/WebCrawlerImpl.java:108-114 | the for-each loop over the links changes the store exactly as WriteTemps says |
| CrawlProperties.RoundsClosedForm | src/crawler/WebCrawlerImpl.java:125-128 | with unbounded counters the loop makes 1 + max(0, min(maxDepth - priority, maxLinks - linksProcessed)) passes (Java's `int` counters differ when both bounds equal Integer.MAX_VALUE; see Left out) |
| CrawlProperties.FreshCrawlRounds | src/crawler/WebCrawlerImpl.java:95-128 | with unbounded counters, from fresh counters a crawl makes max(1, min(maxDepth, maxLinks) + 1) passes; the two bounds limit the same quantity (Java's `int` counters differ when both bounds equal Integer.MAX_VALUE; see Left out) |
| CrawlProperties.ConfiguredCrawlBound | src/crawler/WebCrawlerImpl.java:70-75 | with unbounded counters and any bounds a constructor installs, a first crawl makes at most max(maxLinks, maxDepth) + 1 passes (Java's `int` counters differ when both bounds equal Integer.MAX_VALUE; see Left out) |
| CrawlProperties.SpentCrawlerRunsOnce | src/crawler/WebCrawlerImpl.java:125-128 | the counters are fields and are not reset, so once priority has reached maxDepth a further crawl makes exactly one pass, and ends where that single pass ends |
| CrawlProperties.CrawlDependsOnlyOnStartPage | src/crawler/WebCrawlerImpl.java:89-117 | tempURL is set once from startURL, so every fetch and every search is of the start page: two environments that agree there, on every pass, give the same crawl |
| CrawlProperties.UnparsableStartRecordsNothing | src/crawler/WebCrawlerImpl.java:88-97 | when the start URL does not parse, the body never runs: no exception, no result, no new links |
| CrawlProperties.ResultsAreNewAndDistinct | src/crawler/WebCrawlerImpl.java:96-123 | a crawl records each page at most once, only a page that was not visited before it, and every recorded page ends up visited |
| CrawlProperties.FetchedLinksCarriedOver | src/crawler/WebCrawlerImpl.java:98-105 | the list a pass extracts is the `linkList` the next pass starts with |
| CrawlProperties.FailedFetchReusesStaleLinks | src/crawler/WebCrawlerImpl.java:98-126 | when the page cannot be opened on a pass the IOException is caught and the previous pass's list is used again: when every stale link's path is unknown, the current page is queued once per stale link, and the next page is the head of that queue (first-in first-out) |
| CrawlProperties.PageQueuedOncePerNewLink | src/crawler/WebCrawlerImpl.java:108-114 | the enqueue loop does not deduplicate: when no link's path is known, the current page is written once per link |
| CrawlProperties.KnownPathsQueueNothing | src/crawler/WebCrawlerImpl.java:108-114 | when every link's path is already known, nothing is written |

## Notes on the code

The model follows the code. Some of these notes record places where the
source's comments and its code disagree; others record behaviour that no
comment mentions:

- Tag initials are compared in lower case only (`c == 'a' || c == 'b'`,
  src/crawler/HyperlinkListBuilderImpl.java:59). `extractCommand` compares
  exactly, so it does not ignore case. An `<A>` or `<BODY>` tag is ignored.
- The comment on extractHTML (src/crawler/HyperlinkListBuilderImpl.java:127-131)
  says it returns null when no hyperlink is found. The code returns "" in
  that case, and null only for an href whose closing quote is missing.
- The two-argument constructor installs both bounds whenever either
  argument is positive. A non-positive override is therefore kept next to a
  positive one; it is ignored only when both are non-positive.
- The comment "Enter non-duplicate URL's into the temp table"
  (src/crawler/WebCrawlerImpl.java:107) describes the enqueue loop. The loop
  checks the path of each link against the store, then writes the current
  page's URL, not the link. So the crawler never queues a discovered link,
  and it may queue the same page once per link.
- The comments on maxDepth and priority (src/crawler/WebCrawlerImpl.java:30-47)
  describe a depth: the number of links away from the start URL. In the
  code, every fetch and every `search` call uses `tempURL`, the parsed start
  URL. The URL taken from the store decides whether the body runs, and it
  is the page that is queued, recorded and marked visited
  (src/crawler/WebCrawlerImpl.java:111, :118, :123), but its own content is
  never fetched; `priority` counts passes.
- Only IOException is caught around `createList`
  (src/crawler/WebCrawlerImpl.java:98-105). MalformedURLException is caught
  elsewhere, by `enactCommand` (src/crawler/HyperlinkListBuilderImpl.java:120)
  and by `crawl` for the start URL (src/crawler/WebCrawlerImpl.java:87-91).
  Under the modelled `skipSpace` and
  `readString`, other exceptions escape both `createList` and `crawl`: a
  short tag followed by a space on its line (`<br />`), a short href, or an
  href with no closing quote. In that case the stream is not closed. With
  the literal stubs, `skipSpace` always returns 'a' and `readString` null,
  so every tag reads "anull" and `extractHTML` never returns.

## Left out

- `skipSpace` and `readString` (src/crawler/HTMLreadImpl.java:41, :44) are
  stubs in the code. One returns `'a'` and the other returns null, whatever
  the input. Taken literally, they make `extractHTML`'s loop run forever.
  The model gives them the consuming behaviour their callers rely on, and
  states that behaviour in SkipSpaceAt and ReadStringAt.
- The stream is a sequence of characters with a cursor. Left out:
  - UTF-8 decoding;
  - the read-ahead of the new `InputStreamReader` that `readUntil` wraps
    around the stream on every call;
  - an IOException inside `readUntil`, which gives `false` just as the end
    of the input does.
- `available()` is modelled as the number of unread characters. An
  IOException from `available()` or `close()` inside `createList` is not
  modelled.
- `Character.toLowerCase` and `equalsIgnoreCase` are modelled on ASCII
  letters only.
- `new URL(spec)`, `new URL(base, spec)` and `getPath()` are given
  functions (`UrlLib`), with None for MalformedURLException. Relative
  resolution by section 5.2 of RFC 3986 is therefore not modelled.
- `LinkDBImpl` and its JDBC connection are not part of this model. The
  store is an in-memory class:
  - its frontier is first-in first-out;
  - `checkExistsTemp` means queued or visited;
  - `getNextURL` returns "" when the frontier is empty.

  Only what is stated through LinkStore.NextUrl depends on that queue
  order: NextUrl itself, Crawling.Advance (and through it the next page of
  Crawling.Iteration) and CrawlProperties.FailedFetchReusesStaleLinks.
- `openStream()` is a given function from a URL and the pass (the value of
  `linksProcessed` when the pass starts) to the page's characters or a
  failure, so a page may load on one pass and fail or change on a later
  one. The network itself is not modelled. A pass that throws advances
  neither counter and leaves the store unchanged, so a second `crawl` with
  the same start URL on the same object repeats the same fetch and fails
  the same way; in Java it opens a new stream and may get different content.
- `search` stays abstract, as a given predicate on the start URL. It is
  called with no search terms.
- Logging to `System.err` is not modelled.
- The unused field `links` (src/crawler/WebCrawlerImpl.java:54) is not
  modelled.
- `crawl` calls `createList(URLstring, input)` with two arguments, but the
  definition takes one. The model uses the one-argument version and
  ignores the string.
- Crawling.WebCrawler.constructor: requires arguments that do not throw. A
  constructor cannot return a failure, so the NullPointerException from
  unboxing a null `Integer` is stated by Crawling.ConfiguredBounds instead.
- Crawling.WebCrawler.Crawl: the counters are unbounded integers, so the
  model always terminates. In Java, when both bounds equal
  `Integer.MAX_VALUE`, `priority++` wraps to `Integer.MIN_VALUE`, the loop
  condition stays true and the crawl never ends. With any other bounds a
  crawl stops before its counters can wrap (unless some 2^31 earlier crawls
  on the same object have already pushed them there), and the model agrees
  with Java.
- Crawling.CrawlFrom: the same goes for `priority` and `linksProcessed` in
  the loop function; it does not capture that non-terminating case.
- CrawlProperties.RoundsClosedForm: the pass count holds for unbounded
  counters; it does not hold for Java's `int` counters when both bounds
  equal `Integer.MAX_VALUE`.
- CrawlProperties.FreshCrawlRounds: the pass count holds for unbounded
  counters. In Java, a crawler built with both bounds equal to
  `Integer.MAX_VALUE` never ends its first crawl.
- CrawlProperties.ConfiguredCrawlBound: the bound holds for unbounded
  counters. In Java, `new WebCrawlerImpl(Integer.MAX_VALUE,
  Integer.MAX_VALUE)` installs both bounds, and its first crawl never ends.

=== FILE: common.dfy ===
/** Types shared by the stream reader, the link extractor and the crawler. */
module Common {

  datatype Option<+T> = None | Some(value: T)

  datatype Result<+T, +E> = Success(value: T) | Failure(error: E)

  /** The unchecked Java exceptions that escape from the crawler's code:
      neither `createList` nor `crawl` catches them, so they end the call. */
  datatype Fault = StringIndexOutOfBounds | NullPointer

  /** A `java.net.URL`, known by its external form. */
  datatype Url = Url(external: string)

  /** The parts of `java.net.URL` the crawler calls, taken as given functions:
      `new URL(spec)` (None when it throws MalformedURLException),
      `new URL(context, spec)` (relative resolution, None when malformed)
      and `getPath()`. */
  datatype UrlLib = UrlLib(
    parse: string -> Option<Url>,
    resolve: (Url, string) -> Option<Url>,
    path: Url -> string)

  /** Java's string conversion of a possibly-null String, as used by `+`. */
  function StringOf(s: Option<string>): string
  {
    match s
    case Some(t) => t
    case None => "null"
  }
}

=== FILE: crawl_properties.dfy ===
/** What the crawl loop does over a whole run: how many passes it makes,
    what it depends on, and what it writes to the store. */
module CrawlProperties {
  import opened Common
  import opened LinkStore
  import opened Crawling

  function Min(x: int, y: int): int { if x <= y then x else y }
  function Max(x: int, y: int): int { if x <= y then y else x }

  /** The do-while makes one pass, plus one for every step both counters
      can still take within their bounds. */
  lemma {:induction false} RoundsClosedForm(priority: int, processed: int, b: Bounds)
    ensures Rounds(priority, processed, b)
         == 1 + Max(0, Min(b.maxDepth - priority, b.maxLinks - processed))
    decreases b.maxDepth - priority
  {
    if priority + 1 <= b.maxDepth && processed + 1 <= b.maxLinks {
      RoundsClosedForm(priority + 1, processed + 1, b);
    }
  }

  /** From fresh counters a crawl makes max(1, min(maxDepth, maxLinks) + 1)
      passes; the two bounds limit the same quantity. */
  lemma FreshCrawlRounds(b: Bounds)
    ensures Rounds(0, 0, b) == Max(1, Min(b.maxDepth, b.maxLinks) + 1)
  {
    RoundsClosedForm(0, 0, b);
  }

  /** With any bounds the constructors can install, a first crawl makes at
      most max(maxLinks, maxDepth) + 1 passes. */
  lemma ConfiguredCrawlBound(maxLinks: Option<int>, maxDepth: Option<int>)
    requires ConfiguredBounds(maxLinks, maxDepth).Success?
    ensures var b := ConfiguredBounds(maxLinks, maxDepth).value;
      Rounds(0, 0, b) <= Max(b.maxLinks, b.maxDepth) + 1
  {
    FreshCrawlRounds(ConfiguredBounds(maxLinks, maxDepth).value);
  }

  /** The counters are not reset between crawls: once `priority` has passed
      `maxDepth`, a later crawl on the same object makes exactly one pass. */
  lemma SpentCrawlerRunsOnce(env: Env, start: Option<Url>, l: Loop, b: Bounds)
    requires l.priority >= b.maxDepth
    ensures Rounds(l.priority, l.processed, b) == 1
    ensures CrawlFrom(env, start, l, b) == Iteration(env, start, l)
  {
  }

  /** The list a pass extracts is the one the next pass starts with, so a
      later pass whose fetch fails reuses it (FailedFetchReusesStaleLinks). */
  lemma FetchedLinksCarriedOver(env: Env, start: Option<Url>, l: Loop)
    requires Fresh(l.tables, l.url, start)
    requires Harvest(env, start.value, l.processed, l.links).Success?
    ensures Iteration(env, start, l).fault.None?
    ensures Iteration(env, start, l).loop.links == Harvest(env, start.value, l.processed, l.links).value
  {
  }

  /** When the page cannot be fetched on this pass, the list from the
      previous pass is used again: when no path of those links is known, the
      current page is queued once for each of them, and the next page is
      taken from that queue. */
  lemma FailedFetchReusesStaleLinks(env: Env, start: Option<Url>, l: Loop)
    requires Fresh(l.tables, l.url, start) && env.fetch(start.value, l.processed).FetchFailed?
    requires forall i :: 0 <= i < |l.links| ==>
      !Known(l.tables, env.lib.path(l.links[i])) && env.lib.path(l.links[i]) != l.url
    ensures var r := Iteration(env, start, l);
      var queued := l.tables.frontier + seq(|l.links|, _ => Entry(l.priority, l.url));
      r.fault.None? && r.loop.links == l.links &&
      (queued == [] ==> r.loop.url == "" && r.loop.tables.frontier == []) &&
      (queued != [] ==> r.loop.url == queued[0].url && r.loop.tables.frontier == queued[1..])
  {
    PageQueuedOncePerNewLink(l.tables, l.links, l.priority, l.url, env.lib.path);
  }

  /** Every fetch and every `search` is of the start URL: two environments
      that agree on the start page (on every pass), the URL library and the
      separator give the same crawl, whatever they do on other pages. */
  lemma {:induction false} CrawlDependsOnlyOnStartPage(env1: Env, env2: Env, start: Option<Url>, l: Loop, b: Bounds)
    requires env1.lib == env2.lib && env1.sep == env2.sep
    requires start.Some? ==>
      (forall n :: env1.fetch(start.value, n) == env2.fetch(start.value, n)) &&
      env1.search(start.value) == env2.search(start.value)
    ensures CrawlFrom(env1, start, l, b) == CrawlFrom(env2, start, l, b)
    decreases b.maxDepth - l.priority
  {
    PassDependsOnlyOnStartPage(env1, env2, start, l);
    var pass := Iteration(env1, start, l);
    if pass.fault.None? && pass.loop.priority <= b.maxDepth && pass.loop.processed <= b.maxLinks {
      CrawlDependsOnlyOnStartPage(env1, env2, start, pass.loop, b);
    }
  }

  /** The same for a single pass. */
  lemma PassDependsOnlyOnStartPage(env1: Env, env2: Env, start: Option<Url>, l: Loop)
    requires env1.lib == env2.lib && env1.sep == env2.sep
    requires start.Some? ==>
      (forall n :: env1.fetch(start.value, n) == env2.fetch(start.value, n)) &&
      env1.search(start.value) == env2.search(start.value)
    ensures Iteration(env1, start, l) == Iteration(env2, start, l)
  {
    if start.Some? {
      assert Harvest(env1, start.value, l.processed, l.links) == Harvest(env2, start.value, l.processed, l.links);
    }
  }

  /** When the start URL does not parse, nothing is fetched: the crawl
      cannot fail, records no result and keeps its link list. */
  lemma {:induction false} UnparsableStartRecordsNothing(env: Env, l: Loop, b: Bounds)
    ensures CrawlFrom(env, None, l, b).fault.None?
    ensures CrawlFrom(env, None, l, b).loop.tables.results == l.tables.results
    ensures CrawlFrom(env, None, l, b).loop.links == l.links
    decreases b.maxDepth - l.priority
  {
    var pass := Iteration(env, None, l);
    if pass.loop.priority <= b.maxDepth && pass.loop.processed <= b.maxLinks {
      UnparsableStartRecordsNothing(env, pass.loop, b);
    }
  }

  /** A page is recorded at most once per crawl, and only if it was not
      visited before the crawl; every recorded page ends up visited. */
  lemma {:induction false} ResultsAreNewAndDistinct(env: Env, start: Option<Url>, l: Loop, b: Bounds)
    ensures var r := CrawlFrom(env, start, l, b).loop.tables;
      (forall i :: |l.tables.results| <= i < |r.results| ==>
         r.results[i] !in l.tables.visited && r.results[i] in r.visited) &&
      (forall i, j :: |l.tables.results| <= i < j < |r.results| ==> r.results[i] != r.results[j])
    decreases b.maxDepth - l.priority
  {
    var pass := Iteration(env, start, l);
    if pass.fault.None? && pass.loop.priority <= b.maxDepth && pass.loop.processed <= b.maxLinks {
      ResultsAreNewAndDistinct(env, start, pass.loop, b);
      var r := CrawlFrom(env, start, l, b).loop.tables;
      var mid := pass.loop.tables;
      assert r == CrawlFrom(env, start, pass.loop, b).loop.tables;
      if |mid.results| > |l.tables.results| {
        // this pass recorded l.url, which was unknown and is now visited
        assert mid.results[|l.tables.results|] == l.url && l.url in mid.visited;
        assert |mid.results| == |l.tables.results| + 1 && mid.results <= r.results;
        forall i, j | |l.tables.results| <= i < j < |r.results|
          ensures r.results[i] != r.results[j]
        {
          if i == |l.tables.results| {
            assert r.results[i] == l.url && r.results[j] !in mid.visited;
          }
        }
      }
    }
  }

  /** The enqueue loop does not deduplicate the page it writes: when no
      link's path is in the store, the current page is queued once per
      link. */
  lemma {:induction false} PageQueuedOncePerNewLink(t: Tables, links: seq<Url>, priority: int, url: string, path: Url -> string)
    requires forall i :: 0 <= i < |links| ==> !Known(t, path(links[i])) && path(links[i]) != url
    ensures WriteTemps(t, links, priority, url, path).frontier
         == t.frontier + seq(|links|, _ => Entry(priority, url))
    decreases |links|
  {
    if links != [] {
      var init := links[..|links| - 1];
      PageQueuedOncePerNewLink(t, init, priority, url, path);
      var before := WriteTemps(t, init, priority, url, path);
      var last := path(links[|links| - 1]);
      assert !Known(before, last) by {
        assert last !in t.visited && last !in Urls(t.frontier);
        forall i | 0 <= i < |before.frontier|
          ensures before.frontier[i].url != last
        {
          if i < |t.frontier| {
            assert before.frontier[i] == t.frontier[i];
            assert Urls(t.frontier)[i] == t.frontier[i].url;
          }
        }
        assert forall i :: 0 <= i < |before.frontier| ==> Urls(before.frontier)[i] != last;
      }
      assert seq(|init|, _ => Entry(priority, url)) + [Entry(priority, url)]
          == seq(|links|, _ => Entry(priority, url));
    }
  }

  /** And when every link's path is already in the store, nothing is
      queued. */
  lemma {:induction false} KnownPathsQueueNothing(t: Tables, links: seq<Url>, priority: int, url: string, path: Url -> string)
    requires forall i :: 0 <= i < |links| ==> Known(t, path(links[i]))
    ensures WriteTemps(t, links, priority, url, path) == t
    decreases |links|
  {
    if links != [] {
      KnownPathsQueueNothing(t, links[..|links| - 1], priority, url, path);
    }
  }
}

=== FILE: extraction_properties.dfy ===
/** What one tag does to the extractor's state, and what the extractor makes
    of a few small documents. */
module ExtractionProperties {
  import opened Common
  import opened HtmlRead
  import opened LinkExtraction

  /** An absolute href is appended, once, whatever the base and the body flag;
      only a malformed URL is dropped. */
  lemma AbsoluteHrefAppended(st: ParserState, s: seq<char>, from: nat, lib: UrlLib, sep: char, text: string)
    requires from <= |s|
    requires ExtractHtmlAt(s, from, sep).value == Some(text)
    requires |text| >= 4 && EqualsIgnoreCase(text[..4], "http")
    ensures Enact(st, A, s, from, lib, sep).fault == None
    ensures Enact(st, A, s, from, lib, sep).state.links
         == st.links + (if lib.parse(text).Some? then [lib.parse(text).value] else [])
  {
  }

  /** A relative href is appended, resolved against the base, exactly when a
      base is set, the body has started and the resolution succeeds;
      otherwise the list is unchanged. */
  lemma RelativeHrefNeedsBaseAndBody(st: ParserState, s: seq<char>, from: nat, lib: UrlLib, sep: char, text: string)
    requires from <= |s|
    requires ExtractHtmlAt(s, from, sep).value == Some(text)
    requires |text| >= 4 && !EqualsIgnoreCase(text[..4], "http")
    ensures Enact(st, A, s, from, lib, sep).fault == None
    ensures Enact(st, A, s, from, lib, sep).state.links != st.links <==>
      st.baseURL.Some? && st.bodyReached && lib.resolve(st.baseURL.value, text).Some?
    ensures Enact(st, A, s, from, lib, sep).state.links != st.links ==>
      Enact(st, A, s, from, lib, sep).state.links
        == st.links + [lib.resolve(st.baseURL.value, text).value]
  {
  }

  /** extractHTML finds an href: at `href="v"`, after any run of blanks
      other than the line break, with `v` free of quotes and line breaks, it
      returns `v` and stops just past the closing quote. */
  lemma HrefFound(s: seq<char>, from: nat, p: nat, e: nat, sep: char)
    requires from <= p && p + 6 <= e < |s|
    requires forall i :: from <= i < p ==> IsSpace(s[i]) && s[i] != sep
    requires HrefOpensAt(s, p)
    requires forall i :: p + 6 <= i < e ==> s[i] != '"' && s[i] != sep
    requires s[e] == '"'
    requires sep == '\n' || sep == '\r'
    ensures ExtractHtmlAt(s, from, sep) == Scan(Some(s[p + 6..e]), e + 1)
  {
    HrefInitialRead(s, from, p, sep);
    HrefNameRead(s, p);
    QuotedValueRead(s, p + 6, e, sep);
  }

  /** skipSpace skips the blanks and reads the `h` of the attribute. */
  lemma HrefInitialRead(s: seq<char>, from: nat, p: nat, sep: char)
    requires from <= p
    requires HrefOpensAt(s, p)
    requires forall i :: from <= i < p ==> IsSpace(s[i]) && s[i] != sep
    requires sep == '\n' || sep == '\r'
    ensures SkipSpaceAt(s, from, sep) == Scan(s[p], p + 1)
    ensures s[p] == 'h' || s[p] == 'H'
  {
    FirstNonSpaceIs(s, from, p, sep);
  }

  /** After the `h`, readString reads the attribute name up to the quote. */
  lemma HrefNameRead(s: seq<char>, from: nat)
    requires HrefOpensAt(s, from)
    ensures ReadStringAt(s, from + 1, '"', ' ') == Scan(Some(s[from + 1..from + 5]), from + 6)
  {
    var name := s[from + 1..from + 5];
    RefHoldsNoTarget(name);
    assert forall i :: from + 1 <= i < from + 5 ==> s[i] == name[i - from - 1];
    ReadsUpTo(s, from + 1, from + 5, '"', ' ');
  }

  /** After the opening quote, readString reads the value up to the closing
      one. */
  lemma QuotedValueRead(s: seq<char>, from: nat, e: nat, sep: char)
    requires from <= e < |s|
    requires forall i :: from <= i < e ==> s[i] != '"' && s[i] != sep
    requires s[e] == '"'
    requires sep == '\n' || sep == '\r'
    ensures ReadStringAt(s, from, '"', sep) == Scan(Some(s[from..e]), e + 1)
  {
    ReadsUpTo(s, from, e, '"', sep);
  }

  /** The attribute name "ref=", in any case, holds neither a quote nor a
      space. */
  lemma RefHoldsNoTarget(name: string)
    requires EqualsIgnoreCase(name, "ref=")
    ensures forall i :: 0 <= i < |name| ==> Neither(name[i], '"', ' ')
  {
    assert SameLetter(name[0], 'r') && SameLetter(name[1], 'e');
    assert SameLetter(name[2], 'f') && SameLetter(name[3], '=');
  }

  /** An `a` tag whose href is empty, or that has none before the input
      ends, changes nothing. */
  lemma EmptyHrefIgnored(st: ParserState, s: seq<char>, from: nat, lib: UrlLib, sep: char)
    requires from <= |s|
    requires ExtractHtmlAt(s, from, sep).value == Some("")
    ensures Enact(st, A, s, from, lib, sep).state == st
    ensures Enact(st, A, s, from, lib, sep).fault == None
  {
  }

  /** An href of one to three characters makes checkRelative throw; an
      unterminated one (null) makes `isEmpty` throw. Neither is caught. */
  lemma BadHrefAborts(st: ParserState, s: seq<char>, from: nat, lib: UrlLib, sep: char)
    requires from <= |s|
    ensures var h := ExtractHtmlAt(s, from, sep);
      var r := Enact(st, A, s, from, lib, sep);
      (h.value.None? ==> r.fault == Some(NullPointer)) &&
      (h.value.Some? && 0 < |h.value.value| < 4 ==> r.fault == Some(StringIndexOutOfBounds))
  {
  }

  /** A `base` tag sets the base only before the body, only from a non-empty
      href, and only when that href is a well-formed URL; after the body it
      does not even read the tag's attributes. */
  lemma BaseHonouredOnlyBeforeBody(st: ParserState, s: seq<char>, from: nat, lib: UrlLib, sep: char)
    requires from <= |s|
    ensures st.bodyReached ==> Enact(st, Base, s, from, lib, sep) == Step(st, from, None)
    ensures var h := ExtractHtmlAt(s, from, sep);
      var r := Enact(st, Base, s, from, lib, sep);
      r.state.baseURL != st.baseURL <==>
        !st.bodyReached && h.value.Some? && h.value.value != "" &&
        lib.parse(h.value.value).Some? && lib.parse(h.value.value) != st.baseURL
  {
  }

  /** A `body` tag only sets the flag: links, base and cursor are untouched. */
  lemma BodyOnlySetsFlag(st: ParserState, s: seq<char>, from: nat, lib: UrlLib, sep: char)
    requires from <= |s|
    ensures Enact(st, Body, s, from, lib, sep) == Step(st.(bodyReached := true), from, None)
  {
  }

  /** Only a lower-case 'a' or 'b' right after `<` leads to a tag being
      classified; after any other initial the pass reads nothing more. */
  lemma OnlyLowerCaseInitialsDispatch(st: ParserState, s: seq<char>, from: nat, lib: UrlLib, sep: char)
    requires from <= |s|
    requires var open := ReadUntilAt(s, from, '<', sep);
      open.value && SkipSpaceAt(s, open.next, sep).value !in {'a', 'b'}
    ensures ScanTagAt(st, s, from, lib, sep)
         == Step(st, SkipSpaceAt(s, ReadUntilAt(s, from, '<', sep).next, sep).next, None)
  {
  }

  /** `<br />` reads as the tag "br", and `substring(0, 4)` throws. */
  lemma LineBreakTagAborts(s: string, st: ParserState, lib: UrlLib)
    requires s == "<br />"
    ensures CreateListFrom(st, s, 0, lib, '\n') == Step(st, 4, Some(StringIndexOutOfBounds))
  {
    TagInitialRead(s, 0, '\n');
    ReadsUpTo(s, 2, 3, ' ', '\n');
    assert s[2..3] == "r";
    assert [s[1]] + StringOf(Some("r")) == "br";
    assert ExtractCommand("br") == Failure(StringIndexOutOfBounds);
  }

  /** A `<body>` tag followed directly by the end of its line reads as the
      tag "bnull" (readString returns null), so the body is never seen. */
  lemma BodyAtLineEndUnseen(s: string, lib: UrlLib)
    requires s == "<body>\n"
    ensures CreateListFrom(ParserState(false, None, []), s, 0, lib, '\n').state.bodyReached == false
  {
    TagInitialRead(s, 0, '\n');
    ReadsUpToStop(s, 2, 6, ' ', '\n');
    assert [s[1]] + StringOf(None) == "bnull";
    assert ExtractCommand("bnull") == Success(None);
  }

  /** `<body><a href=...>` with no space between the tags: the body tag's
      name is read up to the next space and swallows `<a`, so the anchor is
      never seen. */
  lemma AnchorRightAfterBodyLost(s: string, lib: UrlLib)
    requires s == "<body><a href=\"http:\">"
    ensures CreateListFrom(ParserState(false, None, []), s, 0, lib, '\n') == Step(ParserState(true, None, []), 22, None)
  {
    BodyTagSwallowsAnchor(s, ParserState(false, None, []), lib);
    NoTagAfterBody(s, ParserState(true, None, []), lib);
  }

  /** What follows that tag holds no `<`: the scan reads it to the end. */
  lemma NoTagAfterBody(s: string, st: ParserState, lib: UrlLib)
    requires s == "<body><a href=\"http:\">"
    ensures CreateListFrom(st, s, 9, lib, '\n') == Step(st, 22, None)
  {
    ReadsToEnd(s, 9, '<', '\n');
    assert ScanTagAt(st, s, 9, lib, '\n') == Step(st, 22, None);
  }

  /** The first pass over that document reads `<body><a ` as one tag. */
  lemma BodyTagSwallowsAnchor(s: string, st: ParserState, lib: UrlLib)
    requires s == "<body><a href=\"http:\">"
    ensures ScanTagAt(st, s, 0, lib, '\n') == Step(st.(bodyReached := true), 9, None)
  {
    TagInitialRead(s, 0, '\n');
    BodyTagNameRead(s);
    assert [s[1]] + StringOf(Some("ody><a")) == "body><a";
    assert ExtractCommand("body><a") == Success(Some(Body));
  }

  /** readString reads the rest of that tag's name up to the space after
      `<a`. */
  lemma BodyTagNameRead(s: string)
    requires s == "<body><a href=\"http:\">"
    ensures ReadStringAt(s, 2, ' ', '\n') == Scan(Some("ody><a"), 9)
  {
    ReadsUpTo(s, 2, 8, ' ', '\n');
    assert s[2..8] == "ody><a";
  }

  /** A page with one absolute link, `<a href="http">`: the list holds that
      URL (if it parses) and the whole page is read. */
  lemma AbsoluteAnchorListed(s: string, lib: UrlLib)
    requires s == "<a href=\"http\">"
    ensures CreateListFrom(ParserState(false, None, []), s, 0, lib, '\n')
         == Step(ParserState(false, None, Parsed(lib.parse("http"))), 15, None)
  {
    var after := ParserState(false, None, Parsed(lib.parse("http")));
    AnchorTagRead(s, ParserState(false, None, []), lib);
    ReadsToEnd(s, 14, '<', '\n');
    assert ScanTagAt(after, s, 14, lib, '\n') == Step(after, 15, None);
  }

  /** Its first pass reads the `a` tag and appends the href's URL. */
  lemma AnchorTagRead(s: string, st: ParserState, lib: UrlLib)
    requires s == "<a href=\"http\">"
    ensures ScanTagAt(st, s, 0, lib, '\n')
         == Step(st.(links := st.links + Parsed(lib.parse("http"))), 14, None)
  {
    TagInitialRead(s, 0, '\n');
    ReadsUpTo(s, 2, 2, ' ', '\n');
    assert s[2..2] == "";
    assert [s[1]] + StringOf(Some("")) == "a";
    assert ExtractCommand("a") == Success(Some(A));
    AnchorHrefRead(s);
    AbsoluteHrefAppended(st, s, 3, lib, '\n', "http");
  }

  /** extractHTML, from just past `<a `, reads the value "http". */
  lemma AnchorHrefRead(s: string)
    requires s == "<a href=\"http\">"
    ensures ExtractHtmlAt(s, 3, '\n') == Scan(Some("http"), 14)
  {
    assert s[4..8] == "ref=";
    assert HrefOpensAt(s, 3);
    HrefFound(s, 3, 3, 13, '\n');
    assert s[9..13] == "http";
  }
}

=== FILE: html_read.dfy ===
/** The low-level stream scanner (HTMLreadImpl): primitives that consume
    characters from a forward-only input stream until a target appears.

    Each primitive is given twice: as a pure function on the characters and a
    cursor (`...At`, returning the value and the cursor after the call), which
    states what the primitive means, and as a method on the stream object that
    is proved to do exactly that. */
module HtmlRead {
  import opened Common

  /** `Character.toLowerCase`, on ASCII letters. */
  function Lower(c: char): char
  {
    if 'A' <= c <= 'Z' then (c as int - 'A' as int + 'a' as int) as char else c
  }

  /** Equal after lower-casing both sides. */
  predicate SameLetter(c: char, d: char)
  {
    Lower(c) == Lower(d)
  }

  /** `c` is neither of the two targets, ignoring case. */
  predicate Neither(c: char, ch1: char, ch2: char)
  {
    !SameLetter(c, ch1) && !SameLetter(c, ch2)
  }

  predicate IsSpace(c: char)
  {
    c == ' ' || c == '\t' || c == '\n' || c == '\r'
  }

  /** `String.equalsIgnoreCase`, on ASCII letters. */
  predicate EqualsIgnoreCase(a: string, b: string)
  {
    |a| == |b| && forall i :: 0 <= i < |a| ==> SameLetter(a[i], b[i])
  }

  /** What a read primitive returns, and where the cursor stands after it. */
  datatype Scan<+T> = Scan(value: T, next: nat)

  /** The index of the first character at or after `from` that is one of
      the two targets (ignoring case), or `|s|` when there is none. */
  function FirstMatch(s: seq<char>, from: nat, ch1: char, ch2: char): (k: nat)
    requires from <= |s|
    ensures from <= k <= |s|
    ensures k < |s| ==> !Neither(s[k], ch1, ch2)
    ensures forall i :: from <= i < k ==> Neither(s[i], ch1, ch2)
    decreases |s| - from
  {
    if from == |s| || !Neither(s[from], ch1, ch2) then from
    else FirstMatch(s, from + 1, ch1, ch2)
  }

  /** FirstMatch is the only index with no target before it and a target
      (or the end of the input) at it. */
  lemma {:induction false} FirstMatchIs(s: seq<char>, from: nat, k: nat, ch1: char, ch2: char)
    requires from <= k <= |s|
    requires forall i :: from <= i < k ==> Neither(s[i], ch1, ch2)
    requires k < |s| ==> !Neither(s[k], ch1, ch2)
    ensures FirstMatch(s, from, ch1, ch2) == k
    decreases k - from
  {
    if from < k {
      FirstMatchIs(s, from + 1, k, ch1, ch2);
    }
  }

  /** `readUntil(in, ch1, ch2)` on the characters `s[from..]`. */
  function ReadUntilAt(s: seq<char>, from: nat, ch1: char, ch2: char): (r: Scan<bool>)
    requires from <= |s|
    ensures from <= r.next <= |s|
    ensures from < |s| ==> from < r.next
    // every character consumed before the last one matched neither target
    ensures forall i :: from <= i < r.next - 1 ==> Neither(s[i], ch1, ch2)
    // true exactly when the character it stopped on is ch1, which is compared first
    ensures r.value <==> from < r.next && SameLetter(s[r.next - 1], ch1)
    // false: it stopped on ch2, or the input ran out with no target in it
    ensures !r.value ==>
      (from < r.next && SameLetter(s[r.next - 1], ch2)) ||
      (r.next == |s| && forall i :: from <= i < |s| ==> Neither(s[i], ch1, ch2))
    // it stops on the first target and reads nothing beyond it
    ensures r.next < |s| ==> !Neither(s[r.next - 1], ch1, ch2)
  {
    var k := FirstMatch(s, from, ch1, ch2);
    if k == |s| then Scan(false, |s|) else Scan(SameLetter(s[k], ch1), k + 1)
  }

  /** The index of the first character at or after `from` that is `ch` or
      not whitespace, or `|s|` when there is none. */
  function FirstNonSpace(s: seq<char>, from: nat, ch: char): (k: nat)
    requires from <= |s|
    ensures from <= k <= |s|
    ensures k < |s| ==> s[k] == ch || !IsSpace(s[k])
    ensures forall i :: from <= i < k ==> s[i] != ch && IsSpace(s[i])
    decreases |s| - from
  {
    if from == |s| || s[from] == ch || !IsSpace(s[from]) then from
    else FirstNonSpace(s, from + 1, ch)
  }

  /** FirstNonSpace is the only index with only whitespace other than `ch`
      before it and `ch` or a non-whitespace character (or the end) at it. */
  lemma {:induction false} FirstNonSpaceIs(s: seq<char>, from: nat, k: nat, ch: char)
    requires from <= k <= |s|
    requires forall i :: from <= i < k ==> IsSpace(s[i]) && s[i] != ch
    requires k < |s| ==> s[k] == ch || !IsSpace(s[k])
    ensures FirstNonSpace(s, from, ch) == k
    decreases k - from
  {
    if from < k {
      FirstNonSpaceIs(s, from + 1, k, ch);
    }
  }

  /** `skipSpace(in, ch)`: skips whitespace and consumes the next character;
      returns it, or '\0' when it is `ch` or the input ran out. */
  function SkipSpaceAt(s: seq<char>, from: nat, ch: char): (r: Scan<char>)
    requires from <= |s|
    ensures from <= r.next <= |s|
    // it consumes at least one character unless the input is already exhausted
    ensures from < |s| ==> from < r.next
    ensures from == |s| ==> r == Scan('\0', from)
    // what it skips is whitespace
    ensures forall i :: from <= i < r.next - 1 ==> IsSpace(s[i]) && s[i] != ch
    // a character it returns is the first non-whitespace one, and is not ch
    ensures r.value != '\0' ==> r.value == s[r.next - 1] && !IsSpace(r.value) && r.value != ch
    // '\0' means it stopped on ch, ran out of input, or read a NUL character
    ensures r.value == '\0' ==>
      from == |s| || s[r.next - 1] == ch || s[r.next - 1] == '\0' || (r.next == |s| && IsSpace(s[r.next - 1]))
    // it stops early only on a non-whitespace character or on ch
    ensures r.next < |s| ==> !IsSpace(s[r.next - 1]) || s[r.next - 1] == ch
  {
    var k := FirstNonSpace(s, from, ch);
    if k == |s| then Scan('\0', |s|)
    else if s[k] == ch then Scan('\0', k + 1)
    else Scan(s[k], k + 1)
  }

  /** `readString(in, ch1, ch2)`: reads like `readUntil` and returns the text
      read before `ch1`, or null (None) when `ch2` or the end comes first. */
  function ReadStringAt(s: seq<char>, from: nat, ch1: char, ch2: char): (r: Scan<Option<string>>)
    requires from <= |s|
    ensures r.next == ReadUntilAt(s, from, ch1, ch2).next
    ensures r.value.Some? <==> ReadUntilAt(s, from, ch1, ch2).value
    ensures r.value.Some? ==> from < r.next && r.value.value == s[from..r.next - 1]
  {
    var k := FirstMatch(s, from, ch1, ch2);
    if k == |s| then Scan(None, |s|)
    else if SameLetter(s[k], ch1) then Scan(Some(s[from..k]), k + 1)
    else Scan(None, k + 1)
  }

  /** readString stops at the first `ch1` when neither target comes before
      it, and returns the text in between. */
  lemma ReadsUpTo(s: seq<char>, from: nat, e: nat, ch1: char, ch2: char)
    requires from <= e < |s|
    requires forall i :: from <= i < e ==> Neither(s[i], ch1, ch2)
    requires SameLetter(s[e], ch1)
    ensures ReadUntilAt(s, from, ch1, ch2) == Scan(true, e + 1)
    ensures ReadStringAt(s, from, ch1, ch2) == Scan(Some(s[from..e]), e + 1)
  {
    FirstMatchIs(s, from, e, ch1, ch2);
  }

  /** It returns null, just past `ch2`, when `ch2` comes first. */
  lemma ReadsUpToStop(s: seq<char>, from: nat, e: nat, ch1: char, ch2: char)
    requires from <= e < |s|
    requires forall i :: from <= i < e ==> Neither(s[i], ch1, ch2)
    requires SameLetter(s[e], ch2) && !SameLetter(s[e], ch1)
    ensures ReadUntilAt(s, from, ch1, ch2) == Scan(false, e + 1)
    ensures ReadStringAt(s, from, ch1, ch2) == Scan(None, e + 1)
  {
    FirstMatchIs(s, from, e, ch1, ch2);
  }

  /** And it reads to the end, returning null, when neither target is
      left. */
  lemma ReadsToEnd(s: seq<char>, from: nat, ch1: char, ch2: char)
    requires from <= |s|
    requires forall i :: from <= i < |s| ==> Neither(s[i], ch1, ch2)
    ensures ReadUntilAt(s, from, ch1, ch2) == Scan(false, |s|)
    ensures ReadStringAt(s, from, ch1, ch2) == Scan(None, |s|)
  {
    FirstMatchIs(s, from, |s|, ch1, ch2);
  }

  /** At `<` followed by a printable character, readUntil stops just past
      the `<` and skipSpace reads that character. */
  lemma TagInitialRead(s: seq<char>, from: nat, sep: char)
    requires from + 1 < |s| && s[from] == '<'
    requires !IsSpace(s[from + 1]) && s[from + 1] != sep && s[from + 1] != '\0'
    ensures ReadUntilAt(s, from, '<', sep) == Scan(true, from + 1)
    ensures SkipSpaceAt(s, from + 1, sep) == Scan(s[from + 1], from + 2)
  {
    FirstMatchIs(s, from, from, '<', sep);
    assert FirstNonSpace(s, from + 1, sep) == from + 1;
  }

  /** A forward-only character stream: `data` is everything the stream will
      deliver, `pos` how much of it has been read. */
  class InputStream {
    const data: seq<char>
    var pos: nat
    var closed: bool

    ghost predicate Valid()
      reads this
    {
      pos <= |data|
    }

    constructor (data: seq<char>)
      ensures Valid() && this.data == data && pos == 0 && !closed
    {
      this.data := data;
      pos := 0;
      closed := false;
    }

    /** `read()`: the next character, or -1 at the end of the stream. */
    method Read() returns (next: int)
      requires Valid()
      modifies this
      ensures Valid() && closed == old(closed)
      ensures old(pos) < |data| ==> next == data[old(pos)] as int && pos == old(pos) + 1
      ensures old(pos) == |data| ==> next == -1 && pos == old(pos)
    {
      if pos < |data| {
        next := data[pos] as int;
        pos := pos + 1;
      } else {
        next := -1;
      }
    }

    /** `available()`: the number of characters still to be read. */
    method Available() returns (n: nat)
      requires Valid()
      ensures n == |data| - pos
    {
      n := |data| - pos;
    }

    method Close()
      modifies this
      ensures closed && pos == old(pos)
    {
      closed := true;
    }
  }

  /** HTMLreadImpl.readUntil: reads one character at a time until one of the
      targets appears, ignoring case; true when it was `ch1`. */
  method ReadUntil(stream: InputStream, ch1: char, ch2: char) returns (found: bool)
    requires stream.Valid()
    modifies stream
    ensures stream.Valid() && stream.closed == old(stream.closed)
    ensures Scan(found, stream.pos) == ReadUntilAt(stream.data, old(stream.pos), ch1, ch2)
  {
    var next := stream.Read();
    while next != -1
      invariant stream.Valid() && stream.closed == old(stream.closed)
      invariant old(stream.pos) <= stream.pos
      invariant next == -1 ==> stream.pos == |stream.data|
      invariant next != -1 ==> old(stream.pos) < stream.pos && next == stream.data[stream.pos - 1] as int
      invariant FirstMatch(stream.data, old(stream.pos), ch1, ch2)
             == FirstMatch(stream.data, if next == -1 then stream.pos else stream.pos - 1, ch1, ch2)
      decreases |stream.data| - stream.pos + (if next == -1 then 0 else 1)
    {
      var check := Lower(next as char);
      if check == Lower(ch1) {
        return true;
      } else if check == Lower(ch2) {
        return false;
      }
      next := stream.Read();
    }
    return false;
  }

  /** skipSpace. In HTMLreadImpl it is a stub that returns 'a' and reads
      nothing, whatever the input; this method stands in for it with the
      consuming behaviour its callers rely on (see SkipSpaceAt). */
  method SkipSpace(stream: InputStream, ch: char) returns (c: char)
    requires stream.Valid()
    modifies stream
    ensures stream.Valid() && stream.closed == old(stream.closed)
    ensures Scan(c, stream.pos) == SkipSpaceAt(stream.data, old(stream.pos), ch)
  {
    var next := stream.Read();
    while next != -1 && next as char != ch && IsSpace(next as char)
      invariant stream.Valid() && stream.closed == old(stream.closed)
      invariant old(stream.pos) <= stream.pos
      invariant next == -1 ==> stream.pos == |stream.data|
      invariant next != -1 ==> old(stream.pos) < stream.pos && next == stream.data[stream.pos - 1] as int
      invariant FirstNonSpace(stream.data, old(stream.pos), ch)
             == FirstNonSpace(stream.data, if next == -1 then stream.pos else stream.pos - 1, ch)
      decreases |stream.data| - stream.pos + (if next == -1 then 0 else 1)
    {
      next := stream.Read();
    }
    if next == -1 || next as char == ch {
      c := '\0';
    } else {
      c := next as char;
    }
  }

  /** readString. In HTMLreadImpl it is a stub that returns null and reads
      nothing, whatever the input; this method stands in for it with the
      consuming behaviour its callers rely on (see ReadStringAt). */
  method ReadString(stream: InputStream, ch1: char, ch2: char) returns (text: Option<string>)
    requires stream.Valid()
    modifies stream
    ensures stream.Valid() && stream.closed == old(stream.closed)
    ensures Scan(text, stream.pos) == ReadStringAt(stream.data, old(stream.pos), ch1, ch2)
  {
    var read := "";
    var next := stream.Read();
    while next != -1
      invariant stream.Valid() && stream.closed == old(stream.closed)
      invariant old(stream.pos) <= stream.pos
      invariant next == -1 ==> stream.pos == |stream.data|
      invariant next != -1 ==> old(stream.pos) < stream.pos && next == stream.data[stream.pos - 1] as int
      invariant var k := if next == -1 then stream.pos else stream.pos - 1;
        read == stream.data[old(stream.pos)..k] &&
        FirstMatch(stream.data, old(stream.pos), ch1, ch2) == FirstMatch(stream.data, k, ch1, ch2)
      decreases |stream.data| - stream.pos + (if next == -1 then 0 else 1)
    {
      var check := Lower(next as char);
      if check == Lower(ch1) {
        return Some(read);
      } else if check == Lower(ch2) {
        return None;
      }
      read := read + [next as char];
      next := stream.Read();
    }
    return None;
  }
}

=== FILE: link_extraction.dfy ===
/** The tag-level link extractor (HyperlinkListBuilderImpl): a single forward
    pass over a character stream that finds `<a`, `<base` and `<body` tags and
    builds the list of links of one document.

    The pass is specified by pure functions over the characters and a cursor
    (ExtractHtmlAt, Enact, ScanTagAt, CreateListFrom); the class below runs the
    same pass on an InputStream and is proved to agree with them. */
module LinkExtraction {
  import opened Common
  import opened HtmlRead

  /** The tags the extractor acts on. */
  datatype Command = A | Base | Body

  /** The per-document state of the scan: whether `<body` has been seen, the
      base URL from a `<base` tag, and the links found so far. */
  datatype ParserState = ParserState(bodyReached: bool, baseURL: Option<Url>, links: seq<Url>)

  /** The state and cursor after part of the scan, and the unchecked
      exception that ended it, if one did. */
  datatype Step = Step(state: ParserState, next: nat, fault: Option<Fault>)

  /** extractCommand: "a" when the tag starts with 'a' (so "abbr" too), "base"
      or "body" when its first four characters are exactly those, null
      otherwise; `substring` throws when the tag is shorter than what it
      compares. */
  function ExtractCommand(tag: string): (r: Result<Option<Command>, Fault>)
    ensures r.Failure? <==> |tag| == 0 || (tag[0] != 'a' && |tag| < 4)
    ensures r.Failure? ==> r.error == StringIndexOutOfBounds
    ensures r == Success(Some(A)) <==> |tag| >= 1 && tag[0] == 'a'
    ensures r == Success(Some(Base)) <==> |tag| >= 4 && tag[..4] == "base"
    ensures r == Success(Some(Body)) <==> |tag| >= 4 && tag[..4] == "body"
    ensures r == Success(None) <==>
      |tag| >= 4 && tag[0] != 'a' && tag[..4] != "base" && tag[..4] != "body"
  {
    if |tag| < 1 then Failure(StringIndexOutOfBounds)
    else if tag[..1] == "a" then Success(Some(A))
    else if |tag| < 4 then Failure(StringIndexOutOfBounds)
    else if tag[..4] == "base" then Success(Some(Base))
    else if tag[..4] == "body" then Success(Some(Body))
    else Success(None)
  }

  /** `String.toLowerCase`, on ASCII letters. */
  function LowerString(s: string): string
  {
    seq(|s|, i requires 0 <= i < |s| => Lower(s[i]))
  }

  /** `String.contains`. */
  predicate Contains(s: string, t: string)
  {
    |t| <= |s| && (s[..|t|] == t || Contains(s[1..], t))
  }

  /** checkRelative: a link is relative unless its first four characters,
      lower-cased, contain "http"; `substring(0, 4)` throws on a shorter one. */
  function CheckRelative(text: string): (r: Result<bool, Fault>)
    ensures r.Failure? <==> |text| < 4
    ensures r.Failure? ==> r.error == StringIndexOutOfBounds
    ensures r.Success? ==> (r.value <==> !EqualsIgnoreCase(text[..4], "http"))
  {
    if |text| < 4 then Failure(StringIndexOutOfBounds)
    else
      var head := LowerString(text[..4]);
      assert Contains(head, "http") <==> EqualsIgnoreCase(text[..4], "http") by {
        assert head[..4] == head;
        assert !Contains(head[1..], "http");
      }
      Success(!Contains(head, "http"))
  }

  /** A successful `new URL(...)` gives one link, a malformed one none. */
  function Parsed(u: Option<Url>): seq<Url>
  {
    match u
    case Some(v) => [v]
    case None => []
  }

  /** `s[p..]` starts with `href="`, the attribute name in any case. */
  ghost predicate HrefOpensAt(s: seq<char>, p: nat)
  {
    p + 6 <= |s| &&
    SameLetter(s[p], 'h') && EqualsIgnoreCase(s[p + 1..p + 5], "ref=") && s[p + 5] == '"'
  }

  /** `s[..end]` ends with `href="v"`, the attribute name in any case. */
  ghost predicate HrefEndsAt(s: seq<char>, end: nat, v: string)
  {
    |v| + 7 <= end <= |s| &&
    SameLetter(s[end - |v| - 7], 'h') &&
    EqualsIgnoreCase(s[end - |v| - 6..end - |v| - 2], "ref=") &&
    s[end - |v| - 2] == '"' && s[end - |v| - 1..end - 1] == v && s[end - 1] == '"'
  }

  /** extractHTML: looks for `href="` and returns the text up to the closing
      quote; "" when the input runs out (or a line ends) first, null (None)
      when the closing quote is missing. It does not stop at the end of the
      tag. What each outcome means is stated by ExtractHtmlValue,
      ExtractHtmlEmpty and ExtractHtmlNull below. */
  function ExtractHtmlAt(s: seq<char>, from: nat, sep: char): (r: Scan<Option<string>>)
    requires from <= |s|
    ensures from <= r.next <= |s|
    decreases |s| - from
  {
    var c := SkipSpaceAt(s, from, sep);
    if c.value == 'h' || c.value == 'H' then
      var token := ReadStringAt(s, c.next, '"', ' ');
      if token.value.Some? && EqualsIgnoreCase(token.value.value, "ref=") then
        ReadStringAt(s, token.next, '"', sep)
      else ExtractHtmlAt(s, token.next, sep)
    else if c.value != '\0' then ExtractHtmlAt(s, c.next, sep)
    else Scan(Some(""), c.next)
  }

  /** When skipSpace has read an `h` at `p` and readString then reads
      "ref=" up to a quote, `href="` opens at `p`. */
  lemma HrefNameAt(s: seq<char>, p: nat)
    requires p < |s| && SameLetter(s[p], 'h')
    requires var token := ReadStringAt(s, p + 1, '"', ' ');
      token.value.Some? && EqualsIgnoreCase(token.value.value, "ref=")
    ensures ReadStringAt(s, p + 1, '"', ' ').next == p + 6 && HrefOpensAt(s, p)
  {
  }

  /** Where a "" from extractHTML can leave the cursor: at the end of the
      input, just past a line break or a NUL, or just past an empty
      `href=""`. (An earlier `href="` may have been skipped: in `hhref="v"`
      the first `h` makes `href=` read as the attribute name.) */
  ghost predicate EmptyStopAt(s: seq<char>, end: nat, sep: char)
  {
    end <= |s| &&
    (HrefEndsAt(s, end, "") || end == |s| || (0 < end && (s[end - 1] == sep || s[end - 1] == '\0')))
  }

  /** What a null from extractHTML at `end` means: an `href="` opened at
      `p`, at or after `from`, and neither a closing quote nor anything but
      the end of the line or the input follows it up to `end`. */
  ghost predicate HrefLeftOpen(s: seq<char>, from: nat, p: nat, end: nat, sep: char)
  {
    from <= p && p + 6 <= end <= |s| && HrefOpensAt(s, p) &&
    (end == |s| || SameLetter(s[end - 1], sep)) &&
    forall i :: p + 6 <= i < end ==> !SameLetter(s[i], '"')
  }

  /** One step of extractHTML: it finds `href="` at `k` and reads the value
      after it (`found`), or it moves on to a later cursor `k` (`moved`), or
      it stops at `k` with "". */
  lemma ExtractHtmlUnfold(s: seq<char>, from: nat, sep: char) returns (k: nat, found: bool, moved: bool)
    requires from <= |s|
    ensures from <= k <= |s|
    ensures found ==> HrefOpensAt(s, k) && ExtractHtmlAt(s, from, sep) == ReadStringAt(s, k + 6, '"', sep)
    ensures !found && moved ==> from < k && ExtractHtmlAt(s, from, sep) == ExtractHtmlAt(s, k, sep)
    ensures !found && !moved ==> ExtractHtmlAt(s, from, sep) == Scan(Some(""), k)
    ensures !found && !moved ==> k == |s| || (0 < k && (s[k - 1] == sep || s[k - 1] == '\0'))
  {
    var c := SkipSpaceAt(s, from, sep);
    if c.value == 'h' || c.value == 'H' {
      var token := ReadStringAt(s, c.next, '"', ' ');
      if token.value.Some? && EqualsIgnoreCase(token.value.value, "ref=") {
        HrefNameAt(s, c.next - 1);
        k, found, moved := c.next - 1, true, false;
        assert token.next == k + 6;
      } else {
        k, found, moved := token.next, false, true;
      }
    } else {
      k, found, moved := c.next, false, c.value != '\0';
    }
  }

  /** A non-empty value from extractHTML is exactly the quoted text of an
      href attribute that ends where the cursor stops. */
  lemma {:induction false} ExtractHtmlValue(s: seq<char>, from: nat, sep: char)
    requires from <= |s|
    ensures var r := ExtractHtmlAt(s, from, sep);
      r.value.Some? && r.value.value != "" ==> HrefEndsAt(s, r.next, r.value.value)
    decreases |s| - from
  {
    var k, found, moved := ExtractHtmlUnfold(s, from, sep);
    if found {
      HrefValueRead(s, k, sep);
    } else if moved {
      ExtractHtmlValue(s, k, sep);
    }
  }

  /** extractHTML returns "" only when its cursor stops at the end of the
      input, just past a line break or a NUL, or just past an empty
      `href=""`. */
  lemma {:induction false} ExtractHtmlEmpty(s: seq<char>, from: nat, sep: char)
    requires from <= |s|
    ensures var r := ExtractHtmlAt(s, from, sep);
      r.value == Some("") ==> EmptyStopAt(s, r.next, sep)
    decreases |s| - from
  {
    var k, found, moved := ExtractHtmlUnfold(s, from, sep);
    if found {
      HrefValueRead(s, k, sep);
    } else if moved {
      ExtractHtmlEmpty(s, k, sep);
    }
  }

  /** extractHTML returns null only for an `href="` whose closing quote is
      missing before the line or the input ends. */
  lemma ExtractHtmlNull(s: seq<char>, from: nat, sep: char)
    requires from <= |s|
    ensures var r := ExtractHtmlAt(s, from, sep);
      r.value.None? ==> exists p :: HrefLeftOpen(s, from, p, r.next, sep)
  {
    var p := UnclosedHrefOf(s, from, sep);
  }

  /** Where the unclosed href that makes extractHTML return null opens. */
  lemma {:induction false} UnclosedHrefOf(s: seq<char>, from: nat, sep: char) returns (p: nat)
    requires from <= |s|
    ensures var r := ExtractHtmlAt(s, from, sep);
      r.value.None? ==> HrefLeftOpen(s, from, p, r.next, sep)
    decreases |s| - from
  {
    var k, found, moved := ExtractHtmlUnfold(s, from, sep);
    if found {
      HrefValueRead(s, k, sep);
      p := k;
    } else if moved {
      p := UnclosedHrefOf(s, k, sep);
    } else {
      p := from;
    }
  }

  /** After `href="` at `p`, the value is read up to the closing quote or
      the end of the line. */
  lemma HrefValueRead(s: seq<char>, p: nat, sep: char)
    requires HrefOpensAt(s, p)
    ensures var r := ReadStringAt(s, p + 6, '"', sep);
      (r.value.Some? ==> HrefEndsAt(s, r.next, r.value.value)) &&
      (r.value.None? ==>
        (r.next == |s| || SameLetter(s[r.next - 1], sep)) &&
        forall i :: p + 6 <= i < r.next ==> !SameLetter(s[i], '"'))
  {
    var r := ReadStringAt(s, p + 6, '"', sep);
    if r.value.Some? {
      assert s[r.next - 1] == '"';
    }
  }

  /** enactCommand: what one classified tag does to the scan state. An `a`
      tag adds its href, as is when absolute, resolved against the base when
      relative, and only once the body has started; a `base` tag before the
      body sets the base; a `body` tag sets the flag. A malformed URL is
      dropped; a null or too short href throws. */
  function Enact(st: ParserState, cmd: Command, s: seq<char>, from: nat, lib: UrlLib, sep: char): (r: Step)
    requires from <= |s|
    ensures from <= r.next <= |s|
    ensures r.state.bodyReached == (st.bodyReached || cmd == Body)
    ensures st.bodyReached ==> r.state.baseURL == st.baseURL
    ensures r.state.baseURL != st.baseURL ==> cmd == Base && r.state.baseURL.Some?
    ensures st.links <= r.state.links && |r.state.links| <= |st.links| + 1
    ensures cmd != A ==> r.state.links == st.links
    ensures r.fault.Some? ==> r.state == st
  {
    match cmd
    case A =>
      var h := ExtractHtmlAt(s, from, sep);
      if h.value.None? then Step(st, h.next, Some(NullPointer))
      else if h.value.value == "" then Step(st, h.next, None)
      else
        var text := h.value.value;
        match CheckRelative(text) {
          case Failure(e) => Step(st, h.next, Some(e))
          case Success(relative) =>
            if !relative then
              Step(st.(links := st.links + Parsed(lib.parse(text))), h.next, None)
            else if st.baseURL.Some? && st.bodyReached then
              Step(st.(links := st.links + Parsed(lib.resolve(st.baseURL.value, text))), h.next, None)
            else Step(st, h.next, None)
        }
    case Base =>
      if st.bodyReached then Step(st, from, None)
      else
        var h := ExtractHtmlAt(s, from, sep);
        if h.value.None? then Step(st, h.next, Some(NullPointer))
        else if h.value.value == "" then Step(st, h.next, None)
        else
          match lib.parse(h.value.value) {
            case None => Step(st, h.next, None)
            case Some(u) => Step(st.(baseURL := Some(u)), h.next, None)
          }
    case Body => Step(st.(bodyReached := true), from, None)
  }

  /** One pass of createList's loop: find the next `<` on this line, read
      the tag initial, and for a lower-case 'a' or 'b' read the rest of the
      tag name up to a space, classify it and act on it. */
  function ScanTagAt(st: ParserState, s: seq<char>, from: nat, lib: UrlLib, sep: char): (r: Step)
    requires from <= |s|
    ensures from <= r.next <= |s|
    ensures from < |s| ==> from < r.next
    ensures st.bodyReached ==> r.state.bodyReached && r.state.baseURL == st.baseURL
    ensures r.state.baseURL != st.baseURL ==> !st.bodyReached && r.state.baseURL.Some?
    ensures st.links <= r.state.links && |r.state.links| <= |st.links| + 1
    ensures r.fault.Some? ==> r.state == st
  {
    var open := ReadUntilAt(s, from, '<', sep);
    if !open.value then Step(st, open.next, None)
    else
      var c := SkipSpaceAt(s, open.next, sep);
      if c.value != '\0' && (c.value == 'a' || c.value == 'b') then
        var rest := ReadStringAt(s, c.next, ' ', sep);
        match ExtractCommand([c.value] + StringOf(rest.value))
        case Failure(e) => Step(st, rest.next, Some(e))
        case Success(None) => Step(st, rest.next, None)
        case Success(Some(cmd)) => Enact(st, cmd, s, rest.next, lib, sep)
      else Step(st, c.next, None)
  }

  /** createList's loop: scan tags until nothing is left to read, or until an
      unchecked exception ends the call. */
  function CreateListFrom(st: ParserState, s: seq<char>, from: nat, lib: UrlLib, sep: char): (r: Step)
    requires from <= |s|
    ensures from <= r.next <= |s|
    // a call that completes reads the whole stream
    ensures r.fault.None? ==> r.next == |s|
    // once the body has started it stays started, and the base is frozen
    ensures st.bodyReached ==> r.state.bodyReached && r.state.baseURL == st.baseURL
    ensures r.state.baseURL != st.baseURL ==> !st.bodyReached && r.state.baseURL.Some?
    // links are only ever appended
    ensures st.links <= r.state.links
    decreases |s| - from
  {
    var step := ScanTagAt(st, s, from, lib, sep);
    if step.fault.None? && step.next < |s| then CreateListFrom(step.state, s, step.next, lib, sep)
    else step
  }

  /** The links a fresh builder finds in a whole document. */
  function ExtractLinks(s: seq<char>, lib: UrlLib, sep: char): Step
  {
    CreateListFrom(ParserState(false, None, []), s, 0, lib, sep)
  }

  /** HyperlinkListBuilderImpl. `sep` is the first character of the platform
      line separator; `lib` stands for java.net.URL. */
  class HyperlinkListBuilder {
    var bodyReached: bool
    var baseURL: Option<Url>
    var linkList: seq<Url>
    const sep: char
    const lib: UrlLib

    function State(): ParserState
      reads this
    {
      ParserState(bodyReached, baseURL, linkList)
    }

    constructor (sep: char, lib: UrlLib)
      ensures State() == ParserState(false, None, [])
      ensures this.sep == sep && this.lib == lib
    {
      bodyReached := false;
      baseURL := None;
      linkList := [];
      this.sep := sep;
      this.lib := lib;
    }

    /** createList: a fresh list, then the tag loop until `available()` is 0,
        then close. `bodyReached` and `baseURL` carry over from earlier calls
        on the same builder. */
    method CreateList(stream: InputStream) returns (r: Result<seq<Url>, Fault>)
      requires stream.Valid()
      modifies this, stream
      ensures stream.Valid()
      ensures var spec := CreateListFrom(ParserState(old(bodyReached), old(baseURL), []),
                                         stream.data, old(stream.pos), lib, sep);
        State() == spec.state && stream.pos == spec.next &&
        stream.closed == (old(stream.closed) || spec.fault.None?) &&
        r == (if spec.fault.None? then Success(spec.state.links) else Failure(spec.fault.value))
    {
      linkList := [];
      ghost var start := State();
      while true
        invariant stream.Valid() && stream.closed == old(stream.closed)
        invariant CreateListFrom(State(), stream.data, stream.pos, lib, sep)
               == CreateListFrom(start, stream.data, old(stream.pos), lib, sep)
        decreases |stream.data| - stream.pos
      {
        var fault := ScanTag(stream);
        if fault.Some? {
          return Failure(fault.value);
        }
        var available := stream.Available();
        if available == 0 {
          break;
        }
      }
      stream.Close();
      r := Success(linkList);
    }

    /** One pass of createList's loop (see ScanTagAt). */
    method ScanTag(stream: InputStream) returns (fault: Option<Fault>)
      requires stream.Valid()
      modifies this, stream
      ensures stream.Valid() && stream.closed == old(stream.closed)
      ensures Step(State(), stream.pos, fault)
           == ScanTagAt(old(State()), stream.data, old(stream.pos), lib, sep)
    {
      var found := ReadUntil(stream, '<', sep);
      if found {
        var c := SkipSpace(stream, sep);
        if c != '\0' && (c == 'a' || c == 'b') {
          var rest := ReadString(stream, ' ', sep);
          var command := ExtractCommand([c] + StringOf(rest));
          if command.Failure? {
            return Some(command.error);
          }
          if command.value.Some? {
            fault := EnactCommand(stream, command.value.value);
            return;
          }
        }
      }
      return None;
    }

    /** enactCommand: acts on one classified tag (see Enact). */
    method EnactCommand(stream: InputStream, command: Command) returns (fault: Option<Fault>)
      requires stream.Valid()
      modifies this, stream
      ensures stream.Valid() && stream.closed == old(stream.closed)
      ensures Step(State(), stream.pos, fault)
           == Enact(old(State()), command, stream.data, old(stream.pos), lib, sep)
    {
      match command
      case A =>
        var text := ExtractHTML(stream);
        if text.None? {
          return Some(NullPointer);
        }
        if text.value != "" {
          var relative := CheckRelative(text.value);
          if relative.Failure? {
            return Some(relative.error);
          }
          if !relative.value {
            var url := lib.parse(text.value);
            if url.Some? {
              linkList := linkList + [url.value];
            }
          } else if baseURL.Some? && bodyReached {
            var url := lib.resolve(baseURL.value, text.value);
            if url.Some? {
              linkList := linkList + [url.value];
            }
          }
        }
        return None;
      case Base =>
        if !bodyReached {
          var text := ExtractHTML(stream);
          if text.None? {
            return Some(NullPointer);
          }
          if text.value != "" {
            var url := lib.parse(text.value);
            if url.Some? {
              baseURL := url;
            }
          }
        }
        return None;
      case Body =>
        bodyReached := true;
        return None;
    }

    /** extractHTML: reads on from the tag to the value of the next href
        attribute (see ExtractHtmlAt). */
    method ExtractHTML(stream: InputStream) returns (text: Option<string>)
      requires stream.Valid()
      modifies stream
      ensures stream.Valid() && stream.closed == old(stream.closed)
      ensures Scan(text, stream.pos) == ExtractHtmlAt(stream.data, old(stream.pos), sep)
    {
      while true
        invariant stream.Valid() && stream.closed == old(stream.closed)
        invariant ExtractHtmlAt(stream.data, stream.pos, sep)
               == ExtractHtmlAt(stream.data, old(stream.pos), sep)
        decreases |stream.data| - stream.pos
      {
        var tempChar := SkipSpace(stream, sep);
        if tempChar == 'h' || tempChar == 'H' {
          var token := ReadString(stream, '"', ' ');
          if token.Some? && EqualsIgnoreCase(token.value, "ref=") {
            text := ReadString(stream, '"', sep);
            return;
          }
        }
        if tempChar == '\0' {
          return Some("");
        }
      }
    }
  }
}

=== FILE: link_store.dfy ===
/** The crawler's link store (the LinkDB interface): a frontier of pages
    waiting to be crawled, each with a priority, the set of pages already
    visited, and the results recorded so far.

    LinkDBImpl and the database behind it are not part of this model. The
    store here keeps the frontier in first-in first-out order and lets the
    same page be queued more than once. Only what is stated through NextUrl
    (getNextURL) depends on that order: NextUrl itself, Crawling.Advance,
    and CrawlProperties.FailedFetchReusesStaleLinks; the other properties of
    the crawler hold whatever order the frontier is served in. */
module LinkStore {

  /** One row of the temporary table: a page and the priority it was
      written with. */
  datatype Entry = Entry(priority: int, url: string)

  /** The store's contents. */
  datatype Tables = Tables(frontier: seq<Entry>, visited: set<string>, results: seq<string>)

  /** The page URLs of the frontier, in queue order. */
  function Urls(q: seq<Entry>): (r: seq<string>)
    ensures |r| == |q|
    ensures forall i :: 0 <= i < |q| ==> r[i] == q[i].url
  {
    if q == [] then [] else Urls(q[..|q| - 1]) + [q[|q| - 1].url]
  }

  /** checkExistsTemp: the page is waiting in the frontier or has been
      visited. */
  predicate Known(t: Tables, url: string)
  {
    url in t.visited || url in Urls(t.frontier)
  }

  /** writeTemp: queue a page with a priority. */
  function Enqueue(t: Tables, priority: int, url: string): (r: Tables)
    ensures Known(r, url)
    ensures r.visited == t.visited && r.results == t.results
  {
    t.(frontier := t.frontier + [Entry(priority, url)])
  }

  /** linkVisited: mark a page as visited. */
  function MarkVisited(t: Tables, url: string): (r: Tables)
    ensures Known(r, url)
    ensures r.frontier == t.frontier && r.results == t.results
  {
    t.(visited := t.visited + {url})
  }

  /** writeResult: record a page as a hit. */
  function Record(t: Tables, url: string): (r: Tables)
    ensures r.results == t.results + [url]
    ensures forall u :: Known(r, u) <==> Known(t, u)
  {
    t.(results := t.results + [url])
  }

  /** getNextURL: the page at the head of the frontier, taken off it, or ""
      when the frontier is empty. */
  function NextUrl(t: Tables): (r: (string, Tables))
    ensures t.frontier == [] ==> r == ("", t)
    ensures t.frontier != [] ==>
      [Entry(t.frontier[0].priority, r.0)] + r.1.frontier == t.frontier
    ensures r.1.visited == t.visited && r.1.results == t.results
  {
    if t.frontier == [] then ("", t) else (t.frontier[0].url, t.(frontier := t.frontier[1..]))
  }

  /** The store as an object whose operations update its tables in place. */
  class LinkDB {
    var frontier: seq<Entry>
    var visited: set<string>
    var results: seq<string>

    function Contents(): Tables
      reads this
    {
      Tables(frontier, visited, results)
    }

    /** A store over existing tables (the connection the crawler is given). */
    constructor (t: Tables)
      ensures Contents() == t
    {
      frontier := t.frontier;
      visited := t.visited;
      results := t.results;
    }

    method CheckExistsTemp(url: string) returns (b: bool)
      ensures b == Known(Contents(), url)
    {
      b := url in visited || url in Urls(frontier);
    }

    method WriteTemp(priority: int, url: string)
      modifies this
      ensures Contents() == Enqueue(old(Contents()), priority, url)
    {
      frontier := frontier + [Entry(priority, url)];
    }

    method LinkVisited(url: string)
      modifies this
      ensures Contents() == MarkVisited(old(Contents()), url)
    {
      visited := visited + {url};
    }

    method WriteResult(url: string)
      modifies this
      ensures Contents() == Record(old(Contents()), url)
    {
      results := results + [url];
    }

    method GetNextURL() returns (url: string)
      modifies this
      ensures (url, Contents()) == NextUrl(old(Contents()))
    {
      if frontier == [] {
        url := "";
      } else {
        url := frontier[0].url;
        frontier := frontier[1..];
      }
    }

    method ReturnResults() returns (r: seq<string>)
      ensures r == Contents().results
    {
      r := results;
    }
  }
}

=== FILE: web_crawler.dfy ===
/** The crawl loop (WebCrawlerImpl): from a start page, repeatedly fetch,
    extract links, queue, test for a hit, mark visited and take the next
    page from the store, until one of two counters passes its bound.

    The loop is specified by pure functions (Iteration, CrawlFrom) over the
    store's tables and the loop variables; the class below runs it against a
    LinkDB object and is proved to end where CrawlFrom says. */
module Crawling {
  import opened Common
  import opened HtmlRead
  import opened LinkExtraction
  import opened LinkStore

  const DefaultMaxLinks := 100
  const DefaultMaxDepth := 2

  datatype Bounds = Bounds(maxLinks: int, maxDepth: int)

  /** The bounds `new WebCrawlerImpl(maxLinks, maxDepth)` installs, from two
      possibly-null Integers. The guard unboxes `maxLinks`, and `maxDepth`
      only when `maxLinks` is not positive; unboxing null throws. When either
      is positive both are installed (a null `maxDepth` keeps its default),
      so a non-positive value can be installed next to a positive one. */
  function ConfiguredBounds(maxLinks: Option<int>, maxDepth: Option<int>): (r: Result<Bounds, Fault>)
    ensures r.Failure? <==> maxLinks.None? || (maxLinks.value <= 0 && maxDepth.None?)
    ensures r.Failure? ==> r.error == NullPointer
    // neither positive: the defaults stay
    ensures r.Success? && maxLinks.value <= 0 && maxDepth.value <= 0 ==>
      r.value == Bounds(DefaultMaxLinks, DefaultMaxDepth)
    // either positive: both are taken as given, a missing maxDepth excepted
    ensures r.Success? && (maxLinks.value > 0 || maxDepth.value > 0) ==>
      r.value.maxLinks == maxLinks.value &&
      r.value.maxDepth == (if maxDepth.Some? then maxDepth.value else DefaultMaxDepth)
  {
    match maxLinks
    case None => Failure(NullPointer)
    case Some(links) =>
      if links > 0 then
        Success(Bounds(links, if maxDepth.Some? then maxDepth.value else DefaultMaxDepth))
      else
        match maxDepth
        case None => Failure(NullPointer)
        case Some(depth) =>
          if depth > 0 then Success(Bounds(links, depth))
          else Success(Bounds(DefaultMaxLinks, DefaultMaxDepth))
  }

  /** What `tempURL.openStream()` gives: the page's characters, or an
      IOException (caught by crawl). */
  datatype FetchResult = Page(data: seq<char>) | FetchFailed

  /** What the crawl loop consults but does not own: java.net.URL, the
      network, the abstract `search`, and the line separator. The network
      is `fetch(page, n)`: what opening `page` gives on the pass that starts
      with `linksProcessed == n`, so a page may load on one pass and fail or
      change on another. */
  datatype Env = Env(lib: UrlLib, fetch: (Url, int) -> FetchResult, search: Url -> bool, sep: char)

  /** The loop's variables: the store, `URLstring`, `linkList` (which keeps
      its value from one iteration to the next), `priority` and
      `linksProcessed`. */
  datatype Loop = Loop(tables: Tables, url: string, links: seq<Url>, priority: int, processed: int)

  /** Where the loop stands, and the exception that ended it, if any. */
  datatype Run = Run(loop: Loop, fault: Option<Fault>)

  /** The guard of an iteration's body: the current page is not in the store,
      is not empty, and the start URL parsed. */
  predicate Fresh(t: Tables, url: string, start: Option<Url>)
  {
    !Known(t, url) && url != "" && start.Some?
  }

  /** The links of the fetch on pass `n`: those createList returns on the
      fetched page, the previous list when the fetch fails, or the exception
      createList throws. */
  function Harvest(env: Env, page: Url, n: int, stale: seq<Url>): Result<seq<Url>, Fault>
  {
    match env.fetch(page, n)
    case FetchFailed => Success(stale)
    case Page(data) =>
      var step := ExtractLinks(data, env.lib, env.sep);
      if step.fault.None? then Success(step.state.links) else Failure(step.fault.value)
  }

  /** The enqueue loop: for each link, in order, whose path is not in the
      store, write the current page (not the link) with the current
      priority. */
  function WriteTemps(t: Tables, links: seq<Url>, priority: int, url: string, path: Url -> string): (r: Tables)
    ensures r.visited == t.visited && r.results == t.results
    ensures t.frontier <= r.frontier && |r.frontier| <= |t.frontier| + |links|
    // only the current page is written, with the current priority
    ensures forall i :: |t.frontier| <= i < |r.frontier| ==> r.frontier[i] == Entry(priority, url)
    decreases |links|
  {
    if links == [] then t
    else
      var before := WriteTemps(t, links[..|links| - 1], priority, url, path);
      if Known(before, path(links[|links| - 1])) then before else Enqueue(before, priority, url)
  }

  /** The bookkeeping that ends every iteration, whether or not its body
      ran: mark the page visited, take the next one, count. */
  function Advance(t: Tables, links: seq<Url>, l: Loop): (r: Run)
    ensures r.fault.None? && r.loop.links == links
    ensures l.url in r.loop.tables.visited && r.loop.tables.visited == t.visited + {l.url}
    ensures r.loop.tables.results == t.results
    ensures r.loop.priority == l.priority + 1 && r.loop.processed == l.processed + 1
    // the next page is the one the store hands out once this one is visited
    ensures (r.loop.url, r.loop.tables) == NextUrl(MarkVisited(t, l.url))
  {
    var next := NextUrl(MarkVisited(t, l.url));
    Run(Loop(next.1, next.0, links, l.priority + 1, l.processed + 1), None)
  }

  /** One pass of crawl's do-while body. `start` is `tempURL`: the parsed
      start URL, which every fetch and every `search` uses. */
  function Iteration(env: Env, start: Option<Url>, l: Loop): (r: Run)
    // an exception leaves everything as it was at the start of the pass
    ensures r.fault.Some? ==> r.loop == l && Fresh(l.tables, l.url, start)
    // otherwise both counters advance by exactly one
    ensures r.fault.None? ==> r.loop.priority == l.priority + 1 && r.loop.processed == l.processed + 1
    // and the page is marked visited
    ensures r.fault.None? ==> l.url in r.loop.tables.visited
    ensures r.fault.None? ==> r.loop.tables.visited == l.tables.visited + {l.url}
    // a result is recorded only when the body ran and search said yes
    ensures r.fault.None? ==>
      r.loop.tables.results ==
        l.tables.results + (if Fresh(l.tables, l.url, start) && env.search(start.value) then [l.url] else [])
    // when the body does not run, nothing is fetched and no link is queued
    ensures !Fresh(l.tables, l.url, start) ==>
      r.fault.None? && r.loop.links == l.links && r == Advance(l.tables, l.links, l)
  {
    if Fresh(l.tables, l.url, start) then
      match Harvest(env, start.value, l.processed, l.links)
      case Failure(f) => Run(l, Some(f))
      case Success(links) =>
        var queued := WriteTemps(l.tables, links, l.priority, l.url, env.lib.path);
        var recorded := if env.search(start.value) then Record(queued, l.url) else queued;
        Advance(recorded, links, l)
    else
      Advance(l.tables, l.links, l)
  }

  /** The number of passes the do-while makes from the counters `priority`
      and `processed`: always one, then one more while both stay within
      their bounds. */
  function Rounds(priority: int, processed: int, b: Bounds): (n: nat)
    ensures n >= 1
    decreases b.maxDepth - priority
  {
    if priority + 1 <= b.maxDepth && processed + 1 <= b.maxLinks then 1 + Rounds(priority + 1, processed + 1, b)
    else 1
  }

  /** crawl's do-while from the loop state `l`: run a pass; go on while no
      exception escaped and `priority <= maxDepth && linksProcessed <= maxLinks`. */
  function CrawlFrom(env: Env, start: Option<Url>, l: Loop, b: Bounds): (r: Run)
    // the counters advance in lockstep, once per pass, and stop just past a bound
    ensures r.fault.None? ==>
      r.loop.priority == l.priority + Rounds(l.priority, l.processed, b) &&
      r.loop.processed == l.processed + Rounds(l.priority, l.processed, b)
    ensures r.fault.None? ==> r.loop.priority > b.maxDepth || r.loop.processed > b.maxLinks
    // the store only grows its visited set and its results
    ensures l.tables.visited <= r.loop.tables.visited
    ensures l.tables.results <= r.loop.tables.results
    decreases b.maxDepth - l.priority
  {
    var pass := Iteration(env, start, l);
    if pass.fault.None? && pass.loop.priority <= b.maxDepth && pass.loop.processed <= b.maxLinks then
      CrawlFrom(env, start, pass.loop, b)
    else
      pass
  }

  /** WebCrawlerImpl: its bounds, its two counters (fields, so they are not
      reset from one crawl to the next) and what it consults. */
  class WebCrawler {
    var maxLinks: int
    var maxDepth: int
    var linksProcessed: int
    var priority: int
    const lib: UrlLib
    const fetch: (Url, int) -> FetchResult
    const search: Url -> bool
    const sep: char

    function Environment(): Env
    {
      Env(lib, fetch, search, sep)
    }

    function CurrentBounds(): Bounds
      reads this
    {
      Bounds(maxLinks, maxDepth)
    }

    /** `new WebCrawlerImpl()`: the default bounds. */
    constructor Default(lib: UrlLib, fetch: (Url, int) -> FetchResult, search: Url -> bool, sep: char)
      ensures CurrentBounds() == Bounds(DefaultMaxLinks, DefaultMaxDepth)
      ensures linksProcessed == 0 && priority == 0
      ensures Environment() == Env(lib, fetch, search, sep)
    {
      maxLinks := DefaultMaxLinks;
      maxDepth := DefaultMaxDepth;
      linksProcessed := 0;
      priority := 0;
      this.lib := lib;
      this.fetch := fetch;
      this.search := search;
      this.sep := sep;
    }

    /** `new WebCrawlerImpl(maxLinks, maxDepth)`, for the arguments it does
        not throw on (see ConfiguredBounds). */
    constructor (maxLinks: Option<int>, maxDepth: Option<int>,
                 lib: UrlLib, fetch: (Url, int) -> FetchResult, search: Url -> bool, sep: char)
      requires ConfiguredBounds(maxLinks, maxDepth).Success?
      ensures Success(CurrentBounds()) == ConfiguredBounds(maxLinks, maxDepth)
      ensures linksProcessed == 0 && priority == 0
      ensures Environment() == Env(lib, fetch, search, sep)
    {
      var links, depth := DefaultMaxLinks, DefaultMaxDepth;
      if maxLinks.value > 0 || maxDepth.value > 0 {
        links := if maxLinks.Some? then maxLinks.value else links;
        depth := if maxDepth.Some? then maxDepth.value else depth;
      }
      this.maxLinks := links;
      this.maxDepth := depth;
      linksProcessed := 0;
      priority := 0;
      this.lib := lib;
      this.fetch := fetch;
      this.search := search;
      this.sep := sep;
    }

    /** crawl: the do-while over the store, then the recorded results. An
        exception from createList ends the crawl (Failure) and leaves the
        store and the counters as they were when it was thrown. */
    method Crawl(startURL: string, db: LinkDB) returns (r: Result<seq<string>, Fault>)
      modifies this, db
      ensures CurrentBounds() == old(CurrentBounds())
      ensures var run := CrawlFrom(Environment(), lib.parse(startURL),
                                   Loop(old(db.Contents()), startURL, [], old(priority), old(linksProcessed)),
                                   old(CurrentBounds()));
        db.Contents() == run.loop.tables &&
        priority == run.loop.priority && linksProcessed == run.loop.processed &&
        r == (if run.fault.None? then Success(run.loop.tables.results) else Failure(run.fault.value))
    {
      var tempURL := lib.parse(startURL);
      var urlString := startURL;
      var linkList: seq<Url> := [];
      ghost var b := CurrentBounds();
      ghost var spec := CrawlFrom(Environment(), tempURL,
                                  Loop(db.Contents(), startURL, [], priority, linksProcessed), b);
      while true
        invariant CurrentBounds() == b
        invariant CrawlFrom(Environment(), tempURL,
                            Loop(db.Contents(), urlString, linkList, priority, linksProcessed), b) == spec
        decreases maxDepth - priority
      {
        var fault;
        fault, urlString, linkList := Pass(db, tempURL, urlString, linkList);
        if fault.Some? {
          return Failure(fault.value);
        }
        if !(priority <= maxDepth && linksProcessed <= maxLinks) {
          break;
        }
      }
      var results := db.ReturnResults();
      r := Success(results);
    }

    /** One pass of the do-while body (see Iteration). */
    method Pass(db: LinkDB, tempURL: Option<Url>, urlString: string, linkList: seq<Url>)
      returns (fault: Option<Fault>, nextURL: string, links: seq<Url>)
      modifies this, db
      ensures CurrentBounds() == old(CurrentBounds())
      ensures Run(Loop(db.Contents(), nextURL, links, priority, linksProcessed), fault)
           == Iteration(Environment(), tempURL,
                        Loop(old(db.Contents()), urlString, linkList, old(priority), old(linksProcessed)))
    {
      ghost var here := Loop(db.Contents(), urlString, linkList, priority, linksProcessed);
      links := linkList;
      var known := db.CheckExistsTemp(urlString);
      if !known && urlString != "" && tempURL.Some? {
        var found := FetchLinks(tempURL.value, linksProcessed, linkList);
        if found.Failure? {
          assert Iteration(Environment(), tempURL, here) == Run(here, Some(found.error));
          return Some(found.error), urlString, linkList;
        }
        links := found.value;
        QueueLinks(db, links, priority, urlString);
        if search(tempURL.value) {
          db.WriteResult(urlString);
        }
      }
      assert Iteration(Environment(), tempURL, here) == Advance(db.Contents(), links, here);
      db.LinkVisited(urlString);
      nextURL := db.GetNextURL();
      linksProcessed := linksProcessed + 1;
      priority := priority + 1;
      fault := None;
    }

    /** Open the page, run a fresh HyperlinkListBuilder over it and close the
        stream; a failed fetch keeps the previous list (see Harvest). */
    method FetchLinks(page: Url, n: int, stale: seq<Url>) returns (r: Result<seq<Url>, Fault>)
      ensures r == Harvest(Environment(), page, n, stale)
    {
      var fetched := fetch(page, n);
      if fetched.FetchFailed? {
        return Success(stale);
      }
      var input := new InputStream(fetched.data);
      var builder := new HyperlinkListBuilder(sep, lib);
      r := builder.CreateList(input);
      if r.Success? {
        input.Close();
      }
    }

    /** The enqueue loop over the extracted links (see WriteTemps). */
    method QueueLinks(db: LinkDB, links: seq<Url>, priority: int, url: string)
      modifies db
      ensures db.Contents() == WriteTemps(old(db.Contents()), links, priority, url, lib.path)
    {
      for i := 0 to |links|
        invariant db.Contents() == WriteTemps(old(db.Contents()), links[..i], priority, url, lib.path)
      {
        assert links[..i + 1][..i] == links[..i];
        var seen := db.CheckExistsTemp(lib.path(links[i]));
        if !seen {
          db.WriteTemp(priority, url);
        }
      }
      assert links[..|links|] == links;
    }
  }
}
